=== FILE: README.md ===
# inex-tracker core, modelled in Dafny

This project models the two pieces of logic inside the expense tracker's React
hooks. Each is a total function over immutable data.

- **Per-type aggregation** (`useTransactions(title)`), in `use_transactions.dfy`,
  module `UseTransactions`. It keeps the transactions whose `type` is `title`
  and totals them. It picks the income registry for the title `'Income'` and
  the expense registry for any other title. It credits each kept transaction
  to the first registry entry whose name equals its category, or to none.
  It keeps the entries whose running amount is positive. It then shapes the
  three parallel chart arrays: `data`, `backgroundColor` and `labels`. The
  source resets shared, mutable category records and accumulates into them.
  The model takes the registry as a sequence of `(name, color)` pairs and
  returns a fresh sequence of running amounts, index-aligned with it.
- **Voice segment handling and the create guard** (`Form`), in `form.dfy`,
  module `Form`. A segment (intent, `isFinal`, entities) drives the draft
  `FormState {amount, category, type, date}`.
  - `add_expense` / `add_income` propose a type change.
  - A final `create_transaction` runs `createTransaction` and stops.
  - A final `cancel_transaction` resets the form and stops.
  - Otherwise each entity proposes an update. `amount` and `date` values are
    copied verbatim. A `category` value keeps its first character and has the
    rest lower-cased. The result is looked up in the income registry first,
    then in the expense registry. Other entity types are ignored.
  - Finally, a final segment on a complete form runs `createTransaction`.

  Every `setFormData` in the source's effect is built from the `formData`
  captured when the effect started, and React keeps the last value. So the
  model records the *list* of proposed states, and the result is the last
  proposal (`Settle`), or the unchanged form when there is none.
  `createTransaction` reads the same captured value. It is a no-op exactly
  when `Number(amount)` is NaN **and** the date holds no `'-'`. Otherwise it
  hands `{...form, amount: Number(amount), id}` to the store and resets the
  form. A read-modify-write variant (`HandleSegmentCumulative`) is defined
  separately. It is used only to state how it differs from the code.
- `wrappers.dfy`, module `Wrappers`: the `Option` type.

Names: `type` is a Dafny keyword, so the source's `type` fields are called
`kind`. A category's `type` (its name) is called `name`.

Collaborators the source calls are parameters:
- `Number(...)` is `toNumber: string -> Number`, where `Number` is `NaN | Num(int)`.
- `uuidv4()` is `freshId`.
- `formatDate(new Date())`, evaluated once when the module loads, is `today`.
- The two category registries are `income` and `expense`.

### Behaviour of the code worth knowing

- The automatic create checks completeness on the form *before* the segment.
  It also creates the transaction from that form, not from the updated one.
  A final segment's own entities never reach the created record, because
  `createTransaction` reads the captured form. They are also missing from the
  settled state afterwards, because the reset is the last proposal
  (`AutoCreateUsesPreSegmentForm`).
- Case normalisation keeps the first character as spoken. It does not
  upper-case it, so `"food"` stays `"food"`.
- Several entities in one segment update do not accumulate; the last proposal
  wins. For "add expense, 50, FOOD" in one update (the category spoken as
  `"FOOD"`, which normalises to the registry's `"Food"`), the amount is lost
  (`OneUtteranceLosesAmount`). The cumulative variant keeps it.
- A form with amount `"abc"` and date `"not-a-date"` is *not* rejected by the
  guard: the date contains `'-'`. A transaction with a NaN amount is created
  (`GuardAdmitsNonNumericAmount`).

## Model

| member | source | states |
|---|---|---|
| `UseTransactions.OfType` | src/useTransactions.js:9 | a transaction is kept exactly when it is in the list and its type equals the title; the result is no longer than the input |
| `UseTransactions.OfTypeCounts` | src/useTransactions.js:9 | the filter keeps each transaction of the title's type as many times as it occurs in the list, and keeps transactions of any other type zero times |
| `UseTransactions.SumOfType` | src/useTransactions.js:9-10 | the reduce (`Sum`) over the filtered list equals the sum of amounts over the whole list counting only transactions of the title's type, so other types contribute nothing |
| `UseTransactions.FindFrom` | src/useTransactions.js:15 | the search returns an index whose entry has the name, with no earlier entry (from the start point) having it; it returns nothing exactly when no entry has it |
| `UseTransactions.Find` | src/useTransactions.js:15 | `find` returns the first registry entry with the transaction's category, or none exactly when no entry has that name |
| `UseTransactions.AccumulateOfType` | src/useTransactions.js:14-16 | after the forEach (`Accumulate`, one `Credit` per transaction), each registry entry that is the first with its name holds the sum of amounts of same-type transactions with exactly that category; a later duplicate holds 0 |
| `UseTransactions.PositiveTallies` | src/useTransactions.js:22 | a category tally survives the filter exactly when it was in the input and its amount is > 0 |
| `UseTransactions.Positives` | src/useTransactions.js:22 | the surviving positions are strictly increasing (registry order), each points at a positive amount, and every positive position is among them |
| `UseTransactions.PositiveTalliesByIndex` | src/useTransactions.js:22-32 | the filtered categories are exactly the registry entries at the surviving positions, in that order, so the three maps of `Chart` read one row per surviving position |
| `UseTransactions.Summarize` | src/useTransactions.js:6-35 | total = sum of amounts of the title's type; `data`, `backgroundColor` and `labels` (built by `Chart`) have equal length; row k comes from one registry entry of the registry the title selects (`Registry`, line 11: 'Income' selects income, anything else expense), which is the first with its name, with its name, colour and positive category total |
| `UseTransactions.ChartShowsEveryPositiveCategory` | src/useTransactions.js:22-31 | every registry entry that is the first with its name and has a positive category total appears as a chart row with its name, colour and total |
| `UseTransactions.CategoryTotalNoneOfType` | src/useTransactions.js:9-10 | with no transaction of the title's type, the type total and every category total are 0 |
| `UseTransactions.NoneOfTypeIsEmpty` | src/useTransactions.js:9-32 | an empty list, or one without that type, gives total 0 and three empty chart arrays |
| `UseTransactions.OtherTypeIgnored` | src/useTransactions.js:9 | appending a transaction of another type changes neither total nor chart |
| `UseTransactions.UnmatchedAddsOnlyToTotal` | src/useTransactions.js:10-16 | appending a same-type transaction whose category is in no entry of the selected registry adds its amount to the total and leaves the chart unchanged |
| `UseTransactions.TotalSplits` | src/useTransactions.js:10-16 | the total equals the sum of all categories' running amounts plus the amounts no category claims |
| `UseTransactions.UnlistedCategoryExample` | src/useTransactions.js:10-16 | an income of 5 under a category the registry lacks gives total 5 and empty chart data |
| `Form.LowerChar` | src/components/Main/Form/Form.jsx:54 | an ASCII upper-case letter moves to its lower-case letter, any other character is unchanged, and the result is never upper-case |
| `Form.Lower` | src/components/Main/Form/Form.jsx:54 | same length, every character lower-cased |
| `Form.Normalize` | src/components/Main/Form/Form.jsx:54 | same length as the input, first character unchanged, every later character lower-cased, so no upper-case letter after the first |
| `Form.NormalizeIdempotent` | src/components/Main/Form/Form.jsx:54 | normalising twice equals normalising once |
| `Form.Names` | src/components/Main/Form/Form.jsx:60-61 | a name is listed exactly when some registry entry carries it |
| `Form.IntentUpdates` | src/components/Main/Form/Form.jsx:40-45 | `add_expense` / `add_income` propose the pre-segment form with only the type set to 'Expense' / 'Income'; other intents propose nothing here |
| `Form.EntityUpdate` | src/components/Main/Form/Form.jsx:53-75 | an update changes only the fields its entity type names; amount and date are copied verbatim; a category entity proposes an update exactly when its normalised name is in either registry, with type 'Income' exactly when it is in the income registry (income first); other entity types propose nothing |
| `Form.EntityUpdates` | src/components/Main/Form/Form.jsx:53-76 | the entity loop makes no more proposals than there are entities; each proposal is one entity's update of the pre-segment form (not of an earlier proposal); there are no proposals exactly when no entity proposes an update |
| `Form.LastProposalIsLastProposer` | src/components/Main/Form/Form.jsx:53-76 | when there is any proposal, the last one is the update of the last entity that proposes anything, and no later entity proposes |
| `Form.Proposers` | src/components/Main/Form/Form.jsx:53-76 | the positions of the entities that propose an update: strictly increasing, each one proposes, and every proposing entity is listed |
| `Form.EntityUpdatesByProposer` | src/components/Main/Form/Form.jsx:53-76 | the `forEach` yields one proposal per proposing entity, in entity order: proposal k is the update of the entity at the k-th proposing position, and there are exactly as many proposals as proposing entities |
| `Form.LastProposalSurvivesSilentEntity` | src/components/Main/Form/Form.jsx:53-76 | an entity that proposes nothing (an unknown type, or a category in neither registry) leaves the last proposal where it was |
| `Form.ProposalsTouchOneEntity` | src/components/Main/Form/Form.jsx:53-76 | every proposal differs from the pre-segment form only in the fields of one entity's type |
| `Form.LastWriteWins` | src/components/Main/Form/Form.jsx:53-76 | an entity that proposes an update decides the settled state, whatever came before; one that proposes nothing leaves it unchanged |
| `Form.CreateTransaction` | src/components/Main/Form/Form.jsx:27-35 | nothing happens exactly when the amount is NaN and the date has no '-'; otherwise one record with the fresh id, `Number(amount)` and the form's category, type and date, and the form resets to the initial state |
| `Form.HandleSegment` | src/components/Main/Form/Form.jsx:37-82 | no segment changes nothing; a created record implies the form reset, the segment was final and the guard passed |
| `Form.SettledStateIsOneUpdate` | src/components/Main/Form/Form.jsx:39-81 | the effect (`SegmentEffect`, settled by `Settle` to the last proposal), outside a final create or cancel and without a successful automatic create, nothing is created and the settled state is the last entity proposal, else the intent's proposal, else the unchanged form; so it differs from the pre-segment form only in the type, or only in the fields of one entity's type |
| `Form.SettledState` | src/components/Main/Form/Form.jsx:39-81 | outside a final create or cancel and without a successful automatic create, the outcome is the pre-segment form settled by the intent's proposal followed by the entities' proposals, with no record |
| `Form.FinalCancelResets` | src/components/Main/Form/Form.jsx:49-50 | a final cancel yields exactly the initial state and creates nothing, whatever the entities |
| `Form.FinalCreateIgnoresEntities` | src/components/Main/Form/Form.jsx:46-47 | a final create acts as the guard on the pre-segment form and is the same with the entities removed |
| `Form.AddIntentSetsType` | src/components/Main/Form/Form.jsx:40-45 | with no entity update and no automatic create, `add_expense` / `add_income` change only the type |
| `Form.AddIntentOverwritten` | src/components/Main/Form/Form.jsx:40-76 | when some entity proposes an update (and no automatic create), the result is the last entity proposal, so the intent's type change is overwritten |
| `Form.AutoCreateUsesPreSegmentForm` | src/components/Main/Form/Form.jsx:78-80 | outside a final create or cancel, a record is created exactly when the segment is final, all four pre-segment fields are non-empty and the guard passes; it is built from the pre-segment form and the entities are irrelevant |
| `Form.GuardAdmitsNonNumericAmount` | src/components/Main/Form/Form.jsx:28-30 | amount "abc" (NaN) with date "not-a-date" passes the guard and yields a record with a NaN amount |
| `Form.FinalSegmentCreatesOnce` | src/components/Main/Form/Form.jsx:78-80 | a final segment on the complete form (100, Food, Expense, 2024-01-01) with numeric amount creates one record with amount 100 and resets the form |
| `Form.HandleSegmentCumulative` | src/components/Main/Form/Form.jsx:53-80 | the read-modify-write variant, outside a final create or cancel: a non-final segment creates nothing; the form ends with the last spoken amount and date (or the previous ones), and an automatic create records that amount (through `Number`) and date: what the source's handler does not do |
| `Form.CumulativeKeepsLastAmountAndDate` | src/components/Main/Form/Form.jsx:53-76 | applying updates to the running state, the amount and date end as the last spoken value of their type: what the source's loop does not guarantee |
| `Form.ProposesIndependentOfForm` | src/components/Main/Form/Form.jsx:53-75 | whether an entity proposes an update depends on the entity and the registries only, not on the form |
| `Form.AgreeOnSingleUpdate` | src/components/Main/Form/Form.jsx:53-76 | when at most one entity proposes an update, last-write-wins and read-modify-write give the same state |
| `Form.FinalUtteranceCreatesOnlyCumulatively` | src/components/Main/Form/Form.jsx:78-80 | a final "add expense, 50, FOOD" segment on the initial form: the source's handler creates nothing because the pre-segment form is incomplete; the cumulative one creates the expense of 50 for Food |
| `Form.OneUtteranceLosesAmount` | src/components/Main/Form/Form.jsx:40-76 | add_expense with entities amount "50" and category "FOOD" in one update: the source's handler ends with amount "" (lost), the cumulative one with "50" |

## Left out

- Rendering: the JSX, Material-UI controls, the snackbar (`setOpen`), the
  words line, and the manual field setters of the form. `List.jsx` and
  `index.js` are presentation and bootstrap only.
- Speech recognition: the segment is an input value. Its `words` are not
  modelled, because they only feed the rendered caption.
- `uuidv4`, `formatDate` and `Number()` are parameters. The model fixes no
  parser, so it says nothing about which strings are numeric. In JavaScript,
  `Number("")` is 0, for instance.
- Amounts are integers. JavaScript's floating-point sums, their rounding and
  their order dependence are not modelled. Infinity is not modelled either.
- The transaction store (`addTransaction`, `deleteTransaction`) and
  `resetCategories` and the category constants are not part of this model.
  The registries are parameters and the created record is the model's output.
  The store's add/delete round trip is therefore not modelled. No bridge is
  modelled between a created `NewTransaction` (whose amount may be NaN) and
  the integer `Transaction` the aggregator reads. The aggregator's NaN
  behaviour is out of scope for the same reason.
- `Form.LowerChar`: lower-cases ASCII letters only, because
  `String.prototype.toLowerCase` follows the Unicode case tables. Those tables
  are not modelled, and they can change a string's length.
- React scheduling, re-renders and effect timing are not modelled. One call
  of `HandleSegment` is one run of the effect. The `console.log` calls are
  not modelled.
- `Form.HandleSegment`: its own contract states only the no-segment case and
  what a created record implies. The other cases are stated by lemmas in the
  table: `FinalCancelResets`, `FinalCreateIgnoresEntities`,
  `AutoCreateUsesPreSegmentForm` (when a record is created, for every other
  intent), and `SettledStateIsOneUpdate` (the settled state when none is).

=== FILE: form.dfy ===
/** The form's voice handling: a speech segment (intent, finality flag,
    entities) drives the draft transaction `FormState`, and the create guard
    turns a draft into a new transaction.

    The source handles a segment inside a React effect whose closure captured
    `formData` when the effect started. Every `setFormData` in that effect is
    built from that same pre-segment value, and React keeps the last value it
    was given. So the handling of one segment is modelled as the LIST of
    states it proposes, and the state it settles on is the last proposal (or
    the unchanged form when nothing was proposed). `createTransaction` reads
    the same pre-segment value.

    Collaborators the source calls are parameters: `Number(...)` is
    `toNumber`, `uuidv4()` is `freshId`, and `formatDate(new Date())`, taken
    once when the module loads, is `today`. */
module Form {
  import opened Wrappers
  import opened UseTransactions

  /** A category registry: the `(type, color)` entries of one context list. */
  type Categories = seq<Category>

  /** The draft; `kind` is the source's `type` field. All four are strings. */
  datatype FormState = FormState(amount: string, category: string, kind: string, date: string)

  /** An entity of a segment: its `type` (here `kind`) and its raw `value`. */
  datatype Entity = Entity(kind: string, value: string)

  datatype Segment = Segment(intent: string, isFinal: bool, entities: seq<Entity>)

  /** A JavaScript number as `Number(...)` yields it: NaN, or a value. */
  datatype Number = NaN | Num(value: int)

  /** The record handed to `addTransaction`. */
  datatype NewTransaction = NewTransaction(id: string, amount: Number, category: string, kind: string, date: string)

  /** What handling something does: the states passed to `setFormData`, in
      call order, and the transaction passed to `addTransaction`, if any. */
  datatype Effect = Effect(proposals: seq<FormState>, created: Option<NewTransaction>)

  /** What the form ends up with: the settled state and the created record. */
  datatype Outcome = Outcome(state: FormState, created: Option<NewTransaction>)

  datatype Field = AmountField | CategoryField | KindField | DateField

  /** `initialState`, with the date fixed when the module was loaded. */
  function InitialState(today: string): FormState
  {
    FormState("", "", Income, today)
  }

  /** The fields in which two drafts differ. */
  function Changed(a: FormState, b: FormState): set<Field>
  {
    (if a.amount != b.amount then {AmountField} else {})
    + (if a.category != b.category then {CategoryField} else {})
    + (if a.kind != b.kind then {KindField} else {})
    + (if a.date != b.date then {DateField} else {})
  }

  /** The fields an entity of the given type is allowed to touch. */
  function Touches(entityKind: string): set<Field>
  {
    if entityKind == "amount" then {AmountField}
    else if entityKind == "category" then {CategoryField, KindField}
    else if entityKind == "date" then {DateField}
    else {}
  }

  /** JavaScript truthiness of all four fields: none is the empty string. */
  predicate Complete(form: FormState)
  {
    form.amount != "" && form.category != "" && form.kind != "" && form.date != ""
  }

  /** The state React settles on after the given `setFormData` calls. */
  function Settle(form: FormState, proposals: seq<FormState>): FormState
  {
    if |proposals| == 0 then form else proposals[|proposals| - 1]
  }

  // ---------------------------------------------------------------------
  // Case normalisation of a spoken category
  // ---------------------------------------------------------------------

  predicate IsUpper(c: char)
  {
    'A' <= c <= 'Z'
  }

  /** `toLowerCase` on one character (ASCII letters only). */
  function LowerChar(c: char): (r: char)
    ensures IsUpper(c) ==> r as int == c as int + 32
    ensures !IsUpper(c) ==> r == c
    ensures !IsUpper(r)
  {
    if IsUpper(c) then (c as int + 32) as char else c
  }

  function Lower(s: string): (r: string)
    ensures |r| == |s|
    ensures forall i :: 0 <= i < |s| ==> r[i] == LowerChar(s[i])
  {
    if |s| == 0 then "" else Lower(s[..|s| - 1]) + [LowerChar(s[|s| - 1])]
  }

  /** `${value.charAt(0)}${value.slice(1).toLowerCase()}`: the first
      character is kept as it is, every later one is lower-cased. */
  function Normalize(s: string): (r: string)
    ensures |r| == |s|
    ensures |s| > 0 ==> r[0] == s[0]
    ensures forall i :: 1 <= i < |s| ==> r[i] == LowerChar(s[i])
    ensures forall i :: 1 <= i < |r| ==> !IsUpper(r[i])
  {
    if |s| == 0 then "" else [s[0]] + Lower(s[1..])
  }

  /** `registry.map(({type}) => type)` */
  function Names(registry: Categories): (r: seq<string>)
    ensures |r| == |registry|
    ensures forall c :: c in registry ==> c.name in r
    ensures forall n :: n in r ==> exists i :: 0 <= i < |registry| && registry[i].name == n
  {
    if |registry| == 0 then []
    else Names(registry[..|registry| - 1]) + [registry[|registry| - 1].name]
  }

  // ---------------------------------------------------------------------
  // Intents and entities
  // ---------------------------------------------------------------------

  /** The update an `add_expense` / `add_income` intent proposes. */
  function IntentUpdates(form: FormState, intent: string): (r: seq<FormState>)
    ensures intent == "add_expense" ==> r == [form.(kind := Expense)]
    ensures intent == "add_income" ==> r == [form.(kind := Income)]
    ensures intent != "add_expense" && intent != "add_income" ==> r == []
    ensures forall p :: p in r ==> Changed(form, p) <= {KindField}
  {
    if intent == "add_expense" then [form.(kind := Expense)]
    else if intent == "add_income" then [form.(kind := Income)]
    else []
  }

  /** The body of the `switch` for one entity, built from `form`: the state
      it proposes, or None when it calls no setter. */
  function EntityUpdate(form: FormState, e: Entity, income: Categories, expense: Categories): (r: Option<FormState>)
    ensures r.Some? ==> Changed(form, r.value) <= Touches(e.kind)
    ensures e.kind == "amount" ==> r.Some? && r.value.amount == e.value
    ensures e.kind == "date" ==> r.Some? && r.value.date == e.value
    ensures e.kind == "category" ==>
      (r.Some? <==> Normalize(e.value) in Names(income) || Normalize(e.value) in Names(expense))
    ensures e.kind == "category" && r.Some? ==>
      && r.value.category == Normalize(e.value)
      && (r.value.kind == Income <==> Normalize(e.value) in Names(income))
      && (r.value.kind == Expense <==> Normalize(e.value) !in Names(income))
    ensures Touches(e.kind) == {} ==> r.None?
  {
    var category := Normalize(e.value);
    if e.kind == "amount" then Some(form.(amount := e.value))
    else if e.kind == "category" then
      if category in Names(income) then Some(form.(kind := Income, category := category))
      else if category in Names(expense) then Some(form.(kind := Expense, category := category))
      else None
    else if e.kind == "date" then Some(form.(date := e.value))
    else None
  }

  /** `p` is the update some entity of `es` proposes for `form`. */
  predicate ProposedBy(form: FormState, es: seq<Entity>, p: FormState, income: Categories, expense: Categories)
  {
    exists j :: 0 <= j < |es| && EntityUpdate(form, es[j], income, expense) == Some(p)
  }

  /** No entity of `es` proposes an update of `form`. */
  predicate NoneProposes(form: FormState, es: seq<Entity>, income: Categories, expense: Categories)
  {
    forall j :: 0 <= j < |es| ==> EntityUpdate(form, es[j], income, expense).None?
  }

  /** `p` is the update proposed by the last entity of `es` that proposes one. */
  predicate LastProposal(form: FormState, es: seq<Entity>, p: FormState, income: Categories, expense: Categories)
  {
    exists j :: 0 <= j < |es| && EntityUpdate(form, es[j], income, expense) == Some(p)
      && forall k :: j < k < |es| ==> EntityUpdate(form, es[k], income, expense).None?
  }

  /** `entities.forEach(...)`: the proposals, in order, every one of them
      built from the same pre-segment `form`. The list is empty exactly when
      no entity proposes; `LastProposalIsLastProposer` says which entity
      supplies its last element. */
  function EntityUpdates(form: FormState, es: seq<Entity>, income: Categories, expense: Categories): (r: seq<FormState>)
    ensures |r| <= |es|
    ensures forall p :: p in r ==> ProposedBy(form, es, p, income, expense)
    ensures r == [] <==> NoneProposes(form, es, income, expense)
  {
    if |es| == 0 then []
    else
      var pre := es[..|es| - 1];
      var rest := EntityUpdates(form, pre, income, expense);
      match EntityUpdate(form, es[|es| - 1], income, expense)
      case None =>
        assert NoneProposes(form, es, income, expense) <==> NoneProposes(form, pre, income, expense) by {
          assert forall j :: 0 <= j < |pre| ==> es[j] == pre[j];
        }
        rest
      case Some(p) => rest + [p]
  }

  /** When some entity proposes, the last proposal comes from the last
      entity that proposes anything. */
  lemma {:induction false} LastProposalIsLastProposer(form: FormState, es: seq<Entity>, income: Categories, expense: Categories)
    requires EntityUpdates(form, es, income, expense) != []
    ensures
      var r := EntityUpdates(form, es, income, expense);
      LastProposal(form, es, r[|r| - 1], income, expense)
  {
    var pre, e := es[..|es| - 1], es[|es| - 1];
    assert es == pre + [e];
    var r := EntityUpdates(form, es, income, expense);
    match EntityUpdate(form, e, income, expense)
    case Some(p) =>
      assert r[|r| - 1] == p;
      LastProposalOfProposer(form, pre, e, p, income, expense);
    case None =>
      LastProposalIsLastProposer(form, pre, income, expense);
      LastProposalSurvivesSilentEntity(form, pre, e, r[|r| - 1], income, expense);
  }

  /** An entity that proposes an update supplies the last proposal. */
  lemma LastProposalOfProposer(form: FormState, es: seq<Entity>, e: Entity, p: FormState, income: Categories, expense: Categories)
    requires EntityUpdate(form, e, income, expense) == Some(p)
    ensures LastProposal(form, es + [e], p, income, expense)
  {
    assert (es + [e])[|es|] == e;
  }

  /** An entity that proposes nothing does not change which proposal is last. */
  lemma LastProposalSurvivesSilentEntity(form: FormState, es: seq<Entity>, e: Entity, p: FormState, income: Categories, expense: Categories)
    requires LastProposal(form, es, p, income, expense)
    requires EntityUpdate(form, e, income, expense).None?
    ensures LastProposal(form, es + [e], p, income, expense)
  {
    var j :| 0 <= j < |es| && EntityUpdate(form, es[j], income, expense) == Some(p)
      && forall k :: j < k < |es| ==> EntityUpdate(form, es[k], income, expense).None?;
    var all := es + [e];
    assert all[j] == es[j];
    assert forall k :: j < k < |all| ==> EntityUpdate(form, all[k], income, expense).None? by {
      forall k | j < k < |all|
        ensures EntityUpdate(form, all[k], income, expense).None?
      {
        if k < |es| { assert all[k] == es[k]; } else { assert all[k] == e; }
      }
    }
  }

  /** The positions holding `true`, in increasing order. */
  function Marked(flags: seq<bool>): (idx: seq<nat>)
    ensures forall k :: 0 <= k < |idx| ==> idx[k] < |flags| && flags[idx[k]]
    ensures forall k, l :: 0 <= k < l < |idx| ==> idx[k] < idx[l]
    ensures forall j :: 0 <= j < |flags| && flags[j] ==> j in idx
  {
    if |flags| == 0 then []
    else
      var n := |flags| - 1;
      Marked(flags[..n]) + (if flags[n] then [n] else [])
  }

  /** Which entities propose an update, position by position. */
  function ProposesAt(form: FormState, es: seq<Entity>, income: Categories, expense: Categories): (flags: seq<bool>)
    ensures |flags| == |es|
    ensures forall j :: 0 <= j < |es| ==> flags[j] == EntityUpdate(form, es[j], income, expense).Some?
  {
    seq(|es|, j requires 0 <= j < |es| => EntityUpdate(form, es[j], income, expense).Some?)
  }

  /** The positions of the entities that propose an update, in increasing
      order: which entities the `forEach` hears from. */
  function Proposers(form: FormState, es: seq<Entity>, income: Categories, expense: Categories): (idx: seq<nat>)
    ensures forall k :: 0 <= k < |idx| ==> idx[k] < |es| && EntityUpdate(form, es[idx[k]], income, expense).Some?
    ensures forall k, l :: 0 <= k < l < |idx| ==> idx[k] < idx[l]
    ensures forall j :: 0 <= j < |es| && EntityUpdate(form, es[j], income, expense).Some? ==> j in idx
  {
    Marked(ProposesAt(form, es, income, expense))
  }

  /** Dropping the last entity drops at most its own position. */
  lemma ProposersStep(form: FormState, es: seq<Entity>, income: Categories, expense: Categories)
    requires |es| > 0
    ensures
      var n := |es| - 1;
      Proposers(form, es, income, expense)
        == Proposers(form, es[..n], income, expense)
           + (if EntityUpdate(form, es[n], income, expense).Some? then [n] else [])
  {
    var n := |es| - 1;
    var flags := ProposesAt(form, es, income, expense);
    assert flags[..n] == ProposesAt(form, es[..n], income, expense) by {
      forall j | 0 <= j < n
        ensures flags[..n][j] == ProposesAt(form, es[..n], income, expense)[j]
      {
        assert es[..n][j] == es[j];
      }
    }
  }

  /** The proposals are exactly the updates of the proposing entities, one
      each, in entity order. */
  lemma {:induction false} EntityUpdatesByProposer(form: FormState, es: seq<Entity>, income: Categories, expense: Categories)
    ensures
      var r, idx := EntityUpdates(form, es, income, expense), Proposers(form, es, income, expense);
      && |r| == |idx|
      && forall k :: 0 <= k < |idx| ==> EntityUpdate(form, es[idx[k]], income, expense) == Some(r[k])
  {
    if |es| > 0 {
      var n := |es| - 1;
      var pre := es[..n];
      EntityUpdatesByProposer(form, pre, income, expense);
      var rest, before := EntityUpdates(form, pre, income, expense), Proposers(form, pre, income, expense);
      var r, idx := EntityUpdates(form, es, income, expense), Proposers(form, es, income, expense);
      ProposersStep(form, es, income, expense);
      EntityUpdatesStep(form, es, income, expense);
      ProposalsCarryOver(form, es, income, expense, rest, before);
      match EntityUpdate(form, es[n], income, expense)
      case None =>
      case Some(p) =>
        assert r == rest + [p];
        assert idx == before + [n];
        forall k | 0 <= k < |idx|
          ensures EntityUpdate(form, es[idx[k]], income, expense) == Some(r[k])
        {
          if k < |before| {
            assert idx[k] == before[k] && r[k] == rest[k];
          } else {
            assert idx[k] == n && r[k] == p;
          }
        }
    }
  }

  /** One step of the `forEach`: the last entity appends its proposal, if any. */
  lemma EntityUpdatesStep(form: FormState, es: seq<Entity>, income: Categories, expense: Categories)
    requires |es| > 0
    ensures
      var n := |es| - 1;
      EntityUpdates(form, es, income, expense)
        == EntityUpdates(form, es[..n], income, expense)
           + (match EntityUpdate(form, es[n], income, expense) case Some(p) => [p] case None => [])
  {
  }

  /** The correspondence for a prefix of `es` carries over to `es`. */
  lemma ProposalsCarryOver(form: FormState, es: seq<Entity>, income: Categories, expense: Categories,
                           rest: seq<FormState>, before: seq<nat>)
    requires |es| > 0 && |rest| == |before|
    requires forall k :: 0 <= k < |before| ==> before[k] < |es| - 1
    requires forall k :: 0 <= k < |before| ==> EntityUpdate(form, es[..|es| - 1][before[k]], income, expense) == Some(rest[k])
    ensures forall k :: 0 <= k < |before| ==> EntityUpdate(form, es[before[k]], income, expense) == Some(rest[k])
  {
    forall k | 0 <= k < |before|
      ensures EntityUpdate(form, es[before[k]], income, expense) == Some(rest[k])
    {
      assert es[..|es| - 1][before[k]] == es[before[k]];
    }
  }

  // ---------------------------------------------------------------------
  // Creating a transaction
  // ---------------------------------------------------------------------

  /** The guard: true when `createTransaction` returns without doing
      anything. */
  predicate Rejected(form: FormState, toNumber: string -> Number)
  {
    toNumber(form.amount).NaN? && '-' !in form.date
  }

  /** `createTransaction()` on the given draft. */
  function CreateTransaction(form: FormState, toNumber: string -> Number, freshId: string, today: string): (e: Effect)
    ensures e.created.None? <==> toNumber(form.amount).NaN? && '-' !in form.date
    ensures e.created.None? ==> e.proposals == []
    ensures e.created.Some? ==>
      && e.proposals == [InitialState(today)]
      && e.created.value.id == freshId
      && e.created.value.amount == toNumber(form.amount)
      && e.created.value.category == form.category
      && e.created.value.kind == form.kind
      && e.created.value.date == form.date
  {
    if Rejected(form, toNumber) then Effect([], None)
    else Effect([InitialState(today)], Some(NewTransaction(freshId, toNumber(form.amount), form.category, form.kind, form.date)))
  }

  // ---------------------------------------------------------------------
  // One segment update
  // ---------------------------------------------------------------------

  /** The body of the effect for a present segment. */
  function SegmentEffect(form: FormState, seg: Segment, income: Categories, expense: Categories,
                         toNumber: string -> Number, freshId: string, today: string): Effect
  {
    if seg.isFinal && seg.intent == "create_transaction" then
      CreateTransaction(form, toNumber, freshId, today)
    else if seg.isFinal && seg.intent == "cancel_transaction" then
      Effect([InitialState(today)], None)
    else
      var auto := if seg.isFinal && Complete(form) then CreateTransaction(form, toNumber, freshId, today) else Effect([], None);
      Effect(IntentUpdates(form, seg.intent) + EntityUpdates(form, seg.entities, income, expense) + auto.proposals,
             auto.created)
  }

  /** The effect run for the current `segment` (None: no segment yet). */
  function HandleSegment(form: FormState, segment: Option<Segment>, income: Categories, expense: Categories,
                         toNumber: string -> Number, freshId: string, today: string): (r: Outcome)
    ensures segment.None? ==> r == Outcome(form, None)
    ensures r.created.Some? ==> r.state == InitialState(today)
    ensures r.created.Some? ==> !Rejected(form, toNumber) && segment.value.isFinal
  {
    match segment
    case None => Outcome(form, None)
    case Some(seg) =>
      var e := SegmentEffect(form, seg, income, expense, toNumber, freshId, today);
      Outcome(Settle(form, e.proposals), e.created)
  }

  // ---------------------------------------------------------------------
  // Properties of the as-written handler
  // ---------------------------------------------------------------------

  /** Normalising an already normalised name changes nothing. */
  lemma NormalizeIdempotent(s: string)
    ensures Normalize(Normalize(s)) == Normalize(s)
  {
  }

  /** Every proposal of the entity loop differs from the pre-segment
      form only in the fields that one entity touches. */
  lemma ProposalsTouchOneEntity(form: FormState, es: seq<Entity>, income: Categories, expense: Categories, p: FormState)
    requires p in EntityUpdates(form, es, income, expense)
    ensures exists j :: 0 <= j < |es| && Changed(form, p) <= Touches(es[j].kind)
  {
    assert ProposedBy(form, es, p, income, expense);
    var j :| 0 <= j < |es| && EntityUpdate(form, es[j], income, expense) == Some(p);
  }

  /** Last write wins: an entity that proposes an update decides the settled
      state of the entity loop, whatever came before it; one that proposes
      nothing leaves it as it was. */
  lemma LastWriteWins(form: FormState, es: seq<Entity>, e: Entity, income: Categories, expense: Categories)
    ensures
      var before := Settle(form, EntityUpdates(form, es, income, expense));
      var after := Settle(form, EntityUpdates(form, es + [e], income, expense));
      match EntityUpdate(form, e, income, expense)
      case Some(p) => after == p
      case None => after == before
  {
  }

  /** Outside a final create or cancel, and when no automatic create goes
      through, nothing is created and the settled state is the last entity
      proposal, or else the intent's proposal, or else the unchanged form.
      So it is the pre-segment form with the fields of ONE update changed:
      the intent's type, or the fields of one entity's type. */
  lemma SettledStateIsOneUpdate(form: FormState, seg: Segment, income: Categories, expense: Categories,
                                toNumber: string -> Number, freshId: string, today: string)
    requires !(seg.isFinal && seg.intent in {"create_transaction", "cancel_transaction"})
    requires !(seg.isFinal && Complete(form) && !Rejected(form, toNumber))
    ensures
      var r := HandleSegment(form, Some(seg), income, expense, toNumber, freshId, today);
      var proposed := EntityUpdates(form, seg.entities, income, expense);
      && r.created == None
      && r.state == (if proposed != [] then proposed[|proposed| - 1] else Settle(form, IntentUpdates(form, seg.intent)))
      && (|| Changed(form, r.state) <= {KindField}
          || exists j :: 0 <= j < |seg.entities| && Changed(form, r.state) <= Touches(seg.entities[j].kind))
  {
    SettledState(form, seg, income, expense, toNumber, freshId, today);
    var intent := IntentUpdates(form, seg.intent);
    var proposed := EntityUpdates(form, seg.entities, income, expense);
    var r := HandleSegment(form, Some(seg), income, expense, toNumber, freshId, today);
    if proposed != [] {
      assert (intent + proposed)[|intent + proposed| - 1] == proposed[|proposed| - 1];
      assert r.state == proposed[|proposed| - 1];
      ProposalsTouchOneEntity(form, seg.entities, income, expense, proposed[|proposed| - 1]);
    } else {
      assert intent + proposed == intent;
      assert r.state == Settle(form, intent);
    }
  }

  /** The settled state without an automatic create: the effect's proposals
      are the intent's followed by the entities', and nothing else. */
  lemma SettledState(form: FormState, seg: Segment, income: Categories, expense: Categories,
                     toNumber: string -> Number, freshId: string, today: string)
    requires !(seg.isFinal && seg.intent in {"create_transaction", "cancel_transaction"})
    requires !(seg.isFinal && Complete(form) && !Rejected(form, toNumber))
    ensures
      var proposed := EntityUpdates(form, seg.entities, income, expense);
      HandleSegment(form, Some(seg), income, expense, toNumber, freshId, today)
        == Outcome(Settle(form, IntentUpdates(form, seg.intent) + proposed), None)
  {
    var intent := IntentUpdates(form, seg.intent);
    var proposed := EntityUpdates(form, seg.entities, income, expense);
    var auto := if seg.isFinal && Complete(form) then CreateTransaction(form, toNumber, freshId, today) else Effect([], None);
    assert auto == Effect([], None);
    assert SegmentEffect(form, seg, income, expense, toNumber, freshId, today) == Effect(intent + proposed + [], None);
    assert intent + proposed + [] == intent + proposed;
  }

  /** A final `cancel_transaction` restores the initial state, creates
      nothing and processes none of the entities. */
  lemma FinalCancelResets(form: FormState, seg: Segment, income: Categories, expense: Categories,
                          toNumber: string -> Number, freshId: string, today: string)
    requires seg.isFinal && seg.intent == "cancel_transaction"
    ensures HandleSegment(form, Some(seg), income, expense, toNumber, freshId, today) == Outcome(InitialState(today), None)
  {
  }

  /** A final `create_transaction` is the Create button pressed on the
      pre-segment form; its entities are never looked at. */
  lemma FinalCreateIgnoresEntities(form: FormState, seg: Segment, income: Categories, expense: Categories,
                                   toNumber: string -> Number, freshId: string, today: string)
    requires seg.isFinal && seg.intent == "create_transaction"
    ensures
      var r := HandleSegment(form, Some(seg), income, expense, toNumber, freshId, today);
      && (Rejected(form, toNumber) ==> r == Outcome(form, None))
      && (!Rejected(form, toNumber) ==>
            && r.state == InitialState(today)
            && r.created == Some(NewTransaction(freshId, toNumber(form.amount), form.category, form.kind, form.date)))
      && r == HandleSegment(form, Some(seg.(entities := [])), income, expense, toNumber, freshId, today)
  {
  }

  /** `add_expense` / `add_income` with nothing else proposed and no
      automatic create: only the type changes. */
  lemma AddIntentSetsType(form: FormState, seg: Segment, income: Categories, expense: Categories,
                          toNumber: string -> Number, freshId: string, today: string)
    requires seg.intent == "add_expense" || seg.intent == "add_income"
    requires EntityUpdates(form, seg.entities, income, expense) == []
    requires !(seg.isFinal && Complete(form))
    ensures
      var r := HandleSegment(form, Some(seg), income, expense, toNumber, freshId, today);
      && r.created == None
      && r.state == form.(kind := if seg.intent == "add_expense" then Expense else Income)
  {
  }

  /** The stale closure: when any entity proposes an update, the intent's
      type change is overwritten by that update, which was built from the
      pre-segment form. */
  lemma AddIntentOverwritten(form: FormState, seg: Segment, income: Categories, expense: Categories,
                             toNumber: string -> Number, freshId: string, today: string)
    requires seg.intent == "add_expense" || seg.intent == "add_income"
    requires EntityUpdates(form, seg.entities, income, expense) != []
    requires !(seg.isFinal && Complete(form))
    ensures
      var r := HandleSegment(form, Some(seg), income, expense, toNumber, freshId, today);
      var proposed := EntityUpdates(form, seg.entities, income, expense);
      && r.created == None
      && r.state == proposed[|proposed| - 1]
  {
    SettledStateIsOneUpdate(form, seg, income, expense, toNumber, freshId, today);
  }

  /** Outside a final create or cancel, a transaction is created exactly
      when the segment is final, the PRE-segment form is complete and the
      guard lets it through; it is built from the pre-segment form, the
      form resets, and the segment's own entities are lost. */
  lemma AutoCreateUsesPreSegmentForm(form: FormState, seg: Segment, income: Categories, expense: Categories,
                                     toNumber: string -> Number, freshId: string, today: string)
    requires !(seg.isFinal && seg.intent in {"create_transaction", "cancel_transaction"})
    ensures
      var r := HandleSegment(form, Some(seg), income, expense, toNumber, freshId, today);
      && (r.created.Some? <==> seg.isFinal && Complete(form) && !Rejected(form, toNumber))
      && (r.created.Some? ==>
            && r.created.value == NewTransaction(freshId, toNumber(form.amount), form.category, form.kind, form.date)
            && r == HandleSegment(form, Some(seg.(entities := [])), income, expense, toNumber, freshId, today))
  {
  }

  /** The guard lets a non-numeric amount through whenever the date holds a
      '-': the record then carries NaN. "not-a-date" holds one. */
  lemma GuardAdmitsNonNumericAmount(toNumber: string -> Number, category: string, kind: string, freshId: string, today: string)
    requires toNumber("abc") == NaN
    ensures
      var e := CreateTransaction(FormState("abc", category, kind, "not-a-date"), toNumber, freshId, today);
      e.created == Some(NewTransaction(freshId, NaN, category, kind, "not-a-date"))
  {
  }

  /** A final segment on a complete form with a numeric amount creates one
      transaction with that number and resets the form. */
  lemma FinalSegmentCreatesOnce(freshId: string, today: string, toNumber: string -> Number, income: Categories, expense: Categories)
    requires toNumber("100") == Num(100)
    ensures
      var form := FormState("100", "Food", Expense, "2024-01-01");
      var r := HandleSegment(form, Some(Segment("", true, [])), income, expense, toNumber, freshId, today);
      && r.created == Some(NewTransaction(freshId, Num(100), "Food", Expense, "2024-01-01"))
      && r.state == InitialState(today)
  {
  }

  // ---------------------------------------------------------------------
  // The cumulative variant, and how it differs
  // ---------------------------------------------------------------------

  /** Entity updates applied one after the other, each to the state the
      previous one produced (a read-modify-write handler). */
  function ApplyCumulative(form: FormState, es: seq<Entity>, income: Categories, expense: Categories): FormState
  {
    if |es| == 0 then form
    else
      var s := ApplyCumulative(form, es[..|es| - 1], income, expense);
      EntityUpdate(s, es[|es| - 1], income, expense).GetOr(s)
  }

  /** A handler that reads the latest state instead of the captured one,
      and checks completeness after the entities. It is not what the source
      does; it is here to state the difference. Outside a final create or
      cancel, every spoken amount and date survives: the form keeps the last
      one of each, and an automatic create records them, where the source's
      handler keeps only the last proposal and creates from the pre-segment
      form. */
  function HandleSegmentCumulative(form: FormState, segment: Option<Segment>, income: Categories, expense: Categories,
                                   toNumber: string -> Number, freshId: string, today: string): (r: Outcome)
    ensures segment.None? ==> r == Outcome(form, None)
    ensures segment.Some? && !(segment.value.isFinal && segment.value.intent in {"create_transaction", "cancel_transaction"}) ==>
      var amount := LastValue(segment.value.entities, "amount").GetOr(form.amount);
      var date := LastValue(segment.value.entities, "date").GetOr(form.date);
      && (!segment.value.isFinal ==> r.created.None?)
      && (r.created.None? ==> r.state.amount == amount && r.state.date == date)
      && (r.created.Some? ==>
            && r.state == InitialState(today)
            && r.created.value.amount == toNumber(amount)
            && r.created.value.date == date)
  {
    match segment
    case None => Outcome(form, None)
    case Some(seg) =>
      if seg.isFinal && seg.intent in {"create_transaction", "cancel_transaction"} then
        HandleSegment(form, segment, income, expense, toNumber, freshId, today)
      else
        var typed := Settle(form, IntentUpdates(form, seg.intent));
        var updated := ApplyCumulative(typed, seg.entities, income, expense);
        CumulativeKeepsLastAmountAndDate(typed, seg.entities, income, expense);
        if seg.isFinal && Complete(updated) then
          var c := CreateTransaction(updated, toNumber, freshId, today);
          Outcome(Settle(updated, c.proposals), c.created)
        else Outcome(updated, None)
  }

  /** The value of the last entity of the given type, if any. */
  function LastValue(es: seq<Entity>, entityKind: string): Option<string>
  {
    if |es| == 0 then None
    else if es[|es| - 1].kind == entityKind then Some(es[|es| - 1].value)
    else LastValue(es[..|es| - 1], entityKind)
  }

  /** The cumulative handler keeps every spoken amount and date: each field
      ends as the last entity of its type said, or as it was. */
  lemma {:induction false} CumulativeKeepsLastAmountAndDate(form: FormState, es: seq<Entity>, income: Categories, expense: Categories)
    ensures ApplyCumulative(form, es, income, expense).amount == LastValue(es, "amount").GetOr(form.amount)
    ensures ApplyCumulative(form, es, income, expense).date == LastValue(es, "date").GetOr(form.date)
  {
    if |es| > 0 {
      CumulativeKeepsLastAmountAndDate(form, es[..|es| - 1], income, expense);
    }
  }

  /** Whether an entity proposes an update does not depend on the form. */
  lemma ProposesIndependentOfForm(a: FormState, b: FormState, e: Entity, income: Categories, expense: Categories)
    ensures EntityUpdate(a, e, income, expense).None? == EntityUpdate(b, e, income, expense).None?
  {
  }

  /** With at most one entity proposing an update, the two handlers agree on
      the entity loop. */
  lemma {:induction false} AgreeOnSingleUpdate(form: FormState, es: seq<Entity>, income: Categories, expense: Categories)
    requires |EntityUpdates(form, es, income, expense)| <= 1
    ensures Settle(form, EntityUpdates(form, es, income, expense)) == ApplyCumulative(form, es, income, expense)
  {
    if |es| > 0 {
      var pre, e := es[..|es| - 1], es[|es| - 1];
      var s := ApplyCumulative(form, pre, income, expense);
      ProposesIndependentOfForm(form, s, e, income, expense);
      AgreeOnSingleUpdate(form, pre, income, expense);
      if EntityUpdate(form, e, income, expense).Some? {
        assert EntityUpdates(form, pre, income, expense) == [];
      }
    }
  }

  /** "add expense, 50, FOOD" in one segment update: the as-written handler
      loses the amount (and would lose the type change were "Food" not an
      expense category); the cumulative handler keeps all three. */
  lemma OneUtteranceLosesAmount(today: string, toNumber: string -> Number, freshId: string,
                                seg: Segment, income: Categories, expense: Categories)
    requires seg == Segment("add_expense", false, [Entity("amount", "50"), Entity("category", "FOOD")])
    requires income == [Category("Salary", "green")]
    requires expense == [Category("Food", "red")]
    ensures HandleSegment(InitialState(today), Some(seg), income, expense, toNumber, freshId, today).state
      == FormState("", "Food", Expense, today)
    ensures HandleSegmentCumulative(InitialState(today), Some(seg), income, expense, toNumber, freshId, today).state
      == FormState("50", "Food", Expense, today)
  {
    FoodIsAnExpense(income, expense);
    var form := InitialState(today);
    var es := seg.entities;
    assert es[..1] == [Entity("amount", "50")];
    assert es[..1][..0] == [];
    assert EntityUpdate(form, es[0], income, expense) == Some(form.(amount := "50"));
    assert EntityUpdate(form, es[1], income, expense) == Some(form.(kind := Expense, category := "Food"));
    assert EntityUpdates(form, es[..1], income, expense) == [form.(amount := "50")];
    assert EntityUpdates(form, es, income, expense) == [form.(amount := "50"), form.(kind := Expense, category := "Food")];
    var typed := form.(kind := Expense);
    assert ApplyCumulative(typed, es[..1], income, expense) == typed.(amount := "50");
    assert ApplyCumulative(typed, es, income, expense) == FormState("50", "Food", Expense, today);
  }

  /** "FOOD" normalises to the expense registry's "Food", which the income
      registry of the example does not list. */
  lemma FoodIsAnExpense(income: Categories, expense: Categories)
    requires income == [Category("Salary", "green")]
    requires expense == [Category("Food", "red")]
    ensures Normalize("FOOD") in Names(expense) && Normalize("FOOD") !in Names(income)
    ensures Normalize("FOOD") == "Food"
  {
    assert Normalize("FOOD") == "Food";
    assert Names(expense) == ["Food"];
    assert Names(income) == ["Salary"];
  }

  /** The same utterance as a final segment on the initial form: the
      source's handler creates nothing (the pre-segment form is incomplete),
      while the cumulative handler creates the expense of 50. */
  lemma FinalUtteranceCreatesOnlyCumulatively(today: string, toNumber: string -> Number, freshId: string,
                                               seg: Segment, income: Categories, expense: Categories)
    requires today != ""
    requires toNumber("50") == Num(50)
    requires seg == Segment("add_expense", true, [Entity("amount", "50"), Entity("category", "FOOD")])
    requires income == [Category("Salary", "green")]
    requires expense == [Category("Food", "red")]
    ensures HandleSegment(InitialState(today), Some(seg), income, expense, toNumber, freshId, today).created == None
    ensures HandleSegmentCumulative(InitialState(today), Some(seg), income, expense, toNumber, freshId, today).created
      == Some(NewTransaction(freshId, Num(50), "Food", Expense, today))
  {
    FoodIsAnExpense(income, expense);
    var es := seg.entities;
    assert es[..1] == [Entity("amount", "50")];
    assert es[..1][..0] == [];
    var typed := InitialState(today).(kind := Expense);
    assert !Complete(InitialState(today));
    assert EntityUpdate(typed, es[0], income, expense) == Some(typed.(amount := "50"));
    assert ApplyCumulative(typed, es[..1], income, expense) == typed.(amount := "50");
    assert ApplyCumulative(typed, es, income, expense) == FormState("50", "Food", Expense, today);
    assert SegmentEffect(InitialState(today), seg, income, expense, toNumber, freshId, today).created == None;
    var updated := FormState("50", "Food", Expense, today);
    assert Complete(updated) && !Rejected(updated, toNumber);
  }
}

=== FILE: use_transactions.dfy ===
/** The per-type aggregation behind the chart: keep the transactions of one
    type, total them, credit each one to the first category of the selected
    registry whose name matches its category, keep the categories whose
    running amount is positive, and shape the three parallel chart arrays.

    The source accumulates into shared, mutable category records that are
    reset before every pass; here the registry is an immutable sequence of
    (name, colour) pairs and the running amounts are a fresh sequence of the
    same length, index-aligned with the registry.

    Every recursion over a sequence peels its LAST element, so each function
    reads as one more step of the source's left-to-right `filter`, `reduce`
    and `forEach`. */
module UseTransactions {
  import opened Wrappers

  /** A stored transaction. `kind` is the source's `type` field. */
  datatype Transaction = Transaction(id: string, amount: int, category: string, kind: string, date: string)

  /** A registry entry: the source's `type` (the category name) and `color`. */
  datatype Category = Category(name: string, color: string)

  /** A registry entry together with the amount accumulated for it. */
  datatype Tally = Tally(category: Category, amount: int)

  /** `chartData`: one dataset (`data`, `backgroundColor`) and the `labels`. */
  datatype ChartData = ChartData(data: seq<int>, backgroundColor: seq<string>, labels: seq<string>)

  datatype Summary = Summary(total: int, chartData: ChartData)

  /** The two transaction types; the title `'Income'` selects the income
      registry, any other title the expense registry. */
  const Income: string := "Income"
  const Expense: string := "Expense"

  // ---------------------------------------------------------------------
  // Reference definitions, over the whole transaction list
  // ---------------------------------------------------------------------

  /** Sum of the amounts of the transactions whose type is `title`. */
  function TypeTotal(txs: seq<Transaction>, title: string): int
  {
    if |txs| == 0 then 0
    else
      var t := txs[|txs| - 1];
      TypeTotal(txs[..|txs| - 1], title) + (if t.kind == title then t.amount else 0)
  }

  /** Sum of the amounts of the transactions whose type is `title` and whose
      category is exactly `name`. */
  function CategoryTotal(txs: seq<Transaction>, title: string, name: string): int
  {
    if |txs| == 0 then 0
    else
      var t := txs[|txs| - 1];
      CategoryTotal(txs[..|txs| - 1], title, name)
        + (if t.kind == title && t.category == name then t.amount else 0)
  }

  /** The registry index that owns `name`: the first entry with that name. */
  predicate Owns(registry: seq<Category>, i: int)
    requires 0 <= i < |registry|
  {
    forall j :: 0 <= j < i ==> registry[j].name != registry[i].name
  }

  // ---------------------------------------------------------------------
  // The steps of useTransactions
  // ---------------------------------------------------------------------

  /** `transactions.filter(({type}) => type === title)` */
  function OfType(txs: seq<Transaction>, title: string): (kept: seq<Transaction>)
    ensures |kept| <= |txs|
    ensures forall t :: t in kept <==> t in txs && t.kind == title
  {
    if |txs| == 0 then []
    else
      var t := txs[|txs| - 1];
      OfType(txs[..|txs| - 1], title) + (if t.kind == title then [t] else [])
  }

  /** `reduce((acc, curr) => acc += curr.amount, 0)` */
  function Sum(txs: seq<Transaction>): int
  {
    if |txs| == 0 then 0 else Sum(txs[..|txs| - 1]) + txs[|txs| - 1].amount
  }

  /** `title === 'Income' ? incomeCategories : expenseCategories` */
  function Registry(title: string, income: seq<Category>, expense: seq<Category>): seq<Category>
  {
    if title == Income then income else expense
  }

  /** `categories.find(category => category.type === name)`, as an index,
      searching from position `from` on. */
  function FindFrom(registry: seq<Category>, name: string, from: nat): (r: Option<nat>)
    requires from <= |registry|
    ensures r.Some? ==> from <= r.value < |registry| && registry[r.value].name == name
    ensures r.Some? ==> forall j :: from <= j < r.value ==> registry[j].name != name
    ensures r.None? <==> forall j :: from <= j < |registry| ==> registry[j].name != name
    decreases |registry| - from
  {
    if from == |registry| then None
    else if registry[from].name == name then Some(from)
    else FindFrom(registry, name, from + 1)
  }

  /** The whole-registry `find`: the entry that owns the name, if any. */
  function Find(registry: seq<Category>, name: string): (r: Option<nat>)
    ensures r.Some? ==> r.value < |registry| && registry[r.value].name == name && Owns(registry, r.value)
    ensures r.None? <==> forall j :: 0 <= j < |registry| ==> registry[j].name != name
  {
    FindFrom(registry, name, 0)
  }

  /** One step of the `forEach`: credit `t` to the first matching category,
      or to none. */
  function Credit(amounts: seq<int>, registry: seq<Category>, t: Transaction): (r: seq<int>)
    requires |amounts| == |registry|
    ensures |r| == |registry|
  {
    match Find(registry, t.category)
    case None => amounts
    case Some(i) => amounts[i := amounts[i] + t.amount]
  }

  /** The running amounts after `resetCategories()` and the `forEach` over
      `kept`, index-aligned with `registry`. */
  function Accumulate(registry: seq<Category>, kept: seq<Transaction>): (r: seq<int>)
    ensures |r| == |registry|
  {
    if |kept| == 0 then seq(|registry|, _ => 0)
    else Credit(Accumulate(registry, kept[..|kept| - 1]), registry, kept[|kept| - 1])
  }

  /** Every registry entry with its accumulated amount. */
  function Tallies(registry: seq<Category>, amounts: seq<int>): (r: seq<Tally>)
    requires |amounts| == |registry|
    ensures |r| == |registry|
    ensures forall i :: 0 <= i < |r| ==> r[i].category == registry[i] && r[i].amount == amounts[i]
  {
    seq(|registry|, i requires 0 <= i < |registry| => Tally(registry[i], amounts[i]))
  }

  /** `categories.filter(category => category.amount > 0)` */
  function PositiveTallies(ts: seq<Tally>): (r: seq<Tally>)
    ensures forall x :: x in r <==> x in ts && x.amount > 0
  {
    if |ts| == 0 then []
    else
      var x := ts[|ts| - 1];
      PositiveTallies(ts[..|ts| - 1]) + (if x.amount > 0 then [x] else [])
  }

  /** The indices of the positive tallies, in increasing order: which
      registry entries the chart shows, and in what order. */
  function Positives(ts: seq<Tally>): (idx: seq<nat>)
    ensures forall k :: 0 <= k < |idx| ==> idx[k] < |ts| && ts[idx[k]].amount > 0
    ensures forall k, l :: 0 <= k < l < |idx| ==> idx[k] < idx[l]
    ensures forall i :: 0 <= i < |ts| && ts[i].amount > 0 ==> i in idx
  {
    if |ts| == 0 then []
    else
      var n := |ts| - 1;
      Positives(ts[..n]) + (if ts[n].amount > 0 then [n] else [])
  }

  /** The three `map`s that shape `chartData`. */
  function Chart(shown: seq<Tally>): ChartData
  {
    ChartData(
      seq(|shown|, k requires 0 <= k < |shown| => shown[k].amount),
      seq(|shown|, k requires 0 <= k < |shown| => shown[k].category.color),
      seq(|shown|, k requires 0 <= k < |shown| => shown[k].category.name))
  }

  /** `useTransactions(title)`, with the store's transactions and the two
      category registries passed in. */
  function Summarize(txs: seq<Transaction>, title: string, income: seq<Category>, expense: seq<Category>): (s: Summary)
    ensures s.total == TypeTotal(txs, title)
    ensures
      var registry := Registry(title, income, expense);
      var idx := Positives(Tallies(registry, Accumulate(registry, OfType(txs, title))));
      && |s.chartData.data| == |s.chartData.backgroundColor| == |s.chartData.labels| == |idx|
      && forall k :: 0 <= k < |idx| ==>
           && idx[k] < |registry|
           && Owns(registry, idx[k])
           && s.chartData.labels[k] == registry[idx[k]].name
           && s.chartData.backgroundColor[k] == registry[idx[k]].color
           && s.chartData.data[k] == CategoryTotal(txs, title, registry[idx[k]].name)
           && s.chartData.data[k] > 0
  {
    var kept := OfType(txs, title);
    var registry := Registry(title, income, expense);
    var amounts := Accumulate(registry, kept);
    var tallies := Tallies(registry, amounts);
    SumOfType(txs, title);
    AccumulateOfType(txs, title, registry);
    PositiveTalliesByIndex(tallies);
    Summary(Sum(kept), Chart(PositiveTallies(tallies)))
  }

  // ---------------------------------------------------------------------
  // Lemmas connecting the steps to the reference definitions
  // ---------------------------------------------------------------------

  /** The total of the filtered list is the type total of the whole list. */
  lemma {:induction false} SumOfType(txs: seq<Transaction>, title: string)
    ensures Sum(OfType(txs, title)) == TypeTotal(txs, title)
  {
    if |txs| > 0 {
      var prefix, t := txs[..|txs| - 1], txs[|txs| - 1];
      SumOfType(prefix, title);
      var kept := OfType(prefix, title);
      if t.kind == title {
        assert OfType(txs, title) == kept + [t];
        assert (kept + [t])[..|kept|] == kept;
      } else {
        assert OfType(txs, title) == kept;
      }
    }
  }

  /** The filter keeps every transaction of the type as often as it occurs
      and drops the others entirely. */
  lemma {:induction false} OfTypeCounts(txs: seq<Transaction>, title: string)
    ensures forall t :: multiset(OfType(txs, title))[t] == if t.kind == title then multiset(txs)[t] else 0
  {
    if |txs| > 0 {
      var prefix, u := txs[..|txs| - 1], txs[|txs| - 1];
      OfTypeCounts(prefix, title);
      assert txs == prefix + [u];
      assert multiset(txs) == multiset(prefix) + multiset{u};
      if u.kind == title {
        assert multiset(OfType(txs, title)) == multiset(OfType(prefix, title)) + multiset{u};
      } else {
        assert OfType(txs, title) == OfType(prefix, title);
      }
    }
  }

  /** One step of the `forEach` adds the amount to a registry entry exactly
      when the entry is the first one named after the transaction's
      category. */
  lemma CreditCell(amounts: seq<int>, registry: seq<Category>, t: Transaction, i: nat)
    requires |amounts| == |registry| && i < |registry|
    ensures Credit(amounts, registry, t)[i]
      == amounts[i] + (if Owns(registry, i) && t.category == registry[i].name then t.amount else 0)
  {
    match Find(registry, t.category)
    case None =>
    case Some(j) =>
      if j != i && t.category == registry[i].name {
        assert j < i && registry[j].name == registry[i].name;
      }
  }

  /** The source's accumulation credits each category exactly the category
      total of its name, provided it is the first registry entry with that
      name; a later duplicate stays at zero. */
  lemma {:induction false} AccumulateOfType(txs: seq<Transaction>, title: string, registry: seq<Category>)
    ensures forall i :: 0 <= i < |registry| ==>
      Accumulate(registry, OfType(txs, title))[i]
        == (if Owns(registry, i) then CategoryTotal(txs, title, registry[i].name) else 0)
  {
    if |txs| > 0 {
      var prefix, t := txs[..|txs| - 1], txs[|txs| - 1];
      AccumulateOfType(prefix, title, registry);
      var kept := OfType(prefix, title);
      var before := Accumulate(registry, kept);
      if t.kind == title {
        assert OfType(txs, title) == kept + [t];
        assert (kept + [t])[..|kept|] == kept;
        assert Accumulate(registry, OfType(txs, title)) == Credit(before, registry, t);
        forall i | 0 <= i < |registry|
          ensures Credit(before, registry, t)[i]
            == (if Owns(registry, i) then CategoryTotal(txs, title, registry[i].name) else 0)
        {
          CreditCell(before, registry, t, i);
        }
      } else {
        assert OfType(txs, title) == kept;
      }
    }
  }

  /** Filtering the tallies keeps exactly the entries at `Positives`, in
      that order. */
  lemma {:induction false} PositiveTalliesByIndex(ts: seq<Tally>)
    ensures
      var idx := Positives(ts);
      && |PositiveTallies(ts)| == |idx|
      && forall k :: 0 <= k < |idx| ==> PositiveTallies(ts)[k] == ts[idx[k]]
  {
    if |ts| > 0 {
      var n := |ts| - 1;
      PositiveTalliesByIndex(ts[..n]);
      var before, idx := PositiveTallies(ts[..n]), Positives(ts[..n]);
      assert |before| == |idx|;
      if ts[n].amount > 0 {
        assert PositiveTallies(ts) == before + [ts[n]];
        assert Positives(ts) == idx + [n];
        forall k | 0 <= k < |idx| + 1
          ensures (before + [ts[n]])[k] == ts[(idx + [n])[k]]
        {
          if k < |idx| {
            assert (before + [ts[n]])[k] == before[k] == ts[..n][idx[k]];
          }
        }
      } else {
        assert PositiveTallies(ts) == before;
        assert Positives(ts) == idx;
        forall k | 0 <= k < |idx|
          ensures before[k] == ts[idx[k]]
        {
          assert before[k] == ts[..n][idx[k]];
        }
      }
    }
  }

  // ---------------------------------------------------------------------
  // Properties of the summary
  // ---------------------------------------------------------------------

  lemma {:induction false} CategoryTotalNoneOfType(txs: seq<Transaction>, title: string, name: string)
    requires forall t :: t in txs ==> t.kind != title
    ensures CategoryTotal(txs, title, name) == 0
    ensures TypeTotal(txs, title) == 0
  {
    if |txs| > 0 {
      assert txs[|txs| - 1] in txs;
      forall t | t in txs[..|txs| - 1] ensures t.kind != title {
        assert t in txs;
      }
      CategoryTotalNoneOfType(txs[..|txs| - 1], title, name);
    }
  }

  /** No transaction of the requested type (in particular, no transaction at
      all): a zero total and an empty chart. */
  lemma NoneOfTypeIsEmpty(txs: seq<Transaction>, title: string, income: seq<Category>, expense: seq<Category>)
    requires forall t :: t in txs ==> t.kind != title
    ensures
      var s := Summarize(txs, title, income, expense);
      && s.total == 0
      && s.chartData.data == [] && s.chartData.backgroundColor == [] && s.chartData.labels == []
  {
    var s := Summarize(txs, title, income, expense);
    CategoryTotalNoneOfType(txs, title, "");
    if |s.chartData.data| > 0 {
      CategoryTotalNoneOfType(txs, title, s.chartData.labels[0]);
    }
  }

  /** Conversely, every registry entry that is the first with its name and
      whose category total is positive appears in the chart, with its name,
      colour and total. */
  lemma ChartShowsEveryPositiveCategory(txs: seq<Transaction>, title: string, income: seq<Category>, expense: seq<Category>, i: nat)
    requires
      var registry := Registry(title, income, expense);
      i < |registry| && Owns(registry, i) && CategoryTotal(txs, title, registry[i].name) > 0
    ensures
      var registry := Registry(title, income, expense);
      var c := Summarize(txs, title, income, expense).chartData;
      exists k :: 0 <= k < |c.labels|
        && c.labels[k] == registry[i].name
        && c.backgroundColor[k] == registry[i].color
        && c.data[k] == CategoryTotal(txs, title, registry[i].name)
  {
    var registry := Registry(title, income, expense);
    AccumulateOfType(txs, title, registry);
    var ts := Tallies(registry, Accumulate(registry, OfType(txs, title)));
    var idx := Positives(ts);
    assert ts[i].amount > 0;
    assert i in idx;
    var k :| 0 <= k < |idx| && idx[k] == i;
    var c := Summarize(txs, title, income, expense).chartData;
    assert c.labels[k] == registry[i].name;
  }

  /** A transaction of another type changes neither the total nor the chart. */
  lemma OtherTypeIgnored(txs: seq<Transaction>, t: Transaction, title: string, income: seq<Category>, expense: seq<Category>)
    requires t.kind != title
    ensures Summarize(txs + [t], title, income, expense) == Summarize(txs, title, income, expense)
  {
    assert (txs + [t])[..|txs|] == txs;
    assert OfType(txs + [t], title) == OfType(txs, title);
  }

  /** A transaction of the requested type whose category is not in the
      selected registry adds to the total and to no category. */
  lemma UnmatchedAddsOnlyToTotal(txs: seq<Transaction>, t: Transaction, title: string, income: seq<Category>, expense: seq<Category>)
    requires t.kind == title
    requires forall c :: c in Registry(title, income, expense) ==> c.name != t.category
    ensures
      var before, after := Summarize(txs, title, income, expense), Summarize(txs + [t], title, income, expense);
      && after.total == before.total + t.amount
      && after.chartData == before.chartData
  {
  }

  /** Sum of the amounts of the transactions no registry entry claims. */
  function Unclaimed(kept: seq<Transaction>, registry: seq<Category>): int
  {
    if |kept| == 0 then 0
    else
      var t := kept[|kept| - 1];
      Unclaimed(kept[..|kept| - 1], registry) + (if Find(registry, t.category).None? then t.amount else 0)
  }

  function SumInts(xs: seq<int>): int
  {
    if |xs| == 0 then 0 else SumInts(xs[..|xs| - 1]) + xs[|xs| - 1]
  }

  lemma {:induction false} SumIntsUpdate(xs: seq<int>, i: nat, d: int)
    requires i < |xs|
    ensures SumInts(xs[i := xs[i] + d]) == SumInts(xs) + d
  {
    var n := |xs| - 1;
    var ys := xs[i := xs[i] + d];
    assert ys[..n] == if i < n then xs[..n][i := xs[i] + d] else xs[..n];
    if i < n {
      SumIntsUpdate(xs[..n], i, d);
    }
  }

  lemma {:induction false} SumIntsZeros(n: nat)
    ensures SumInts(seq(n, _ => 0)) == 0
  {
    if n > 0 {
      assert seq(n, _ => 0)[..n - 1] == seq(n - 1, _ => 0);
      SumIntsZeros(n - 1);
    }
  }

  /** Conservation: the total splits into what the categories received and
      what no category claimed. Hence, with negative amounts allowed and
      unclaimed transactions, the chart need not add up to the total. */
  lemma {:induction false} TotalSplits(kept: seq<Transaction>, registry: seq<Category>)
    ensures Sum(kept) == SumInts(Accumulate(registry, kept)) + Unclaimed(kept, registry)
  {
    if |kept| == 0 {
      SumIntsZeros(|registry|);
    } else {
      var prefix, t := kept[..|kept| - 1], kept[|kept| - 1];
      TotalSplits(prefix, registry);
      match Find(registry, t.category)
      case None =>
      case Some(i) =>
        SumIntsUpdate(Accumulate(registry, prefix), i, t.amount);
    }
  }

  /** A concrete instance: an income of 5 filed under a category the income
      registry does not list is in the total and not in the chart. */
  lemma UnlistedCategoryExample(tx: Transaction, salary: Category)
    requires tx == Transaction("t1", 5, "Gift", "Income", "2024-01-01")
    requires salary == Category("Salary", "green")
    ensures
      var s := Summarize([tx], "Income", [salary], []);
      s.total == 5 && s.chartData.data == []
  {
    assert Registry("Income", [salary], []) == [salary];
    UnmatchedAddsOnlyToTotal([], tx, "Income", [salary], []);
    NoneOfTypeIsEmpty([], "Income", [salary], []);
    assert [] + [tx] == [tx];
  }
}

=== FILE: wrappers.dfy ===
/** The optional value used wherever the source yields `undefined` (a failed
    `find`, an entity that proposes no update, a create that was rejected). */
module Wrappers {

  datatype Option<+T> = None | Some(value: T) {

    /** Returns the value in Some, or the given default when None */
    function GetOr(default: T): T {
      match this
      case Some(v) => v
      case None => default
    }
  }
}
